=== FILE: README.md ===
# Missing-person case matching: a Dafny model

This project models the non-UI logic of a missing-person finder. Registered
missing-person cases and public sighting submissions each carry an optional
face embedding. A matching engine files every sighting under the registered
case it is most similar to, provided that similarity reaches a threshold. An
operator can then confirm a proposed pair, which marks both records found.

The model has three parts:

- **Records** (`data_models.dfy`, module `DataModels`). Both record kinds are
  datatypes with their optional fields and defaults. Status is `Found` or
  `NotFound`; its stored codes are "F" and "NF".
- **The case store** (`db_queries.dfy`, module `DbQueries`; lemmas in
  `db_properties.dfy`, module `DbProperties`). The store is two maps keyed
  by primary key. Every query is a pure function of the store. Registration,
  submission and `update_found_status` return a `Transition`: the next store
  plus `Committed` or `Raised(error)`. A raised error always comes with the
  unchanged store. The two deletes never raise and return the next store. The
  SQL has no ORDER BY, so each fetch takes the scan order `order` as a
  parameter. `Enumerates(order, m)` says that `order` lists every key once; it is what a full table scan gives, and `DashboardCountIsCaseCount` uses it.
- **The matching engine** (`match_algo.dfy`, module `MatchAlgo`; lemmas in
  `match_properties.dfy`, module `MatchProperties`; the nested loops in
  `match_loop.dfy`, module `MatchLoop`). `BestMatch` is the inner loop: a
  running best that starts at (`None`, 0.0) and is replaced only on a strictly
  greater similarity. `MatchRows` is the outer loop: it appends a sighting to
  its best case's list when the best similarity is at least the threshold.
  `Match` adds the two failure responses, and `MatchStore` runs it against a
  store. The result is a map from `Option<Id>` to a list of sighting ids,
  because the source can file under `None` when the threshold is 0.0 or below.

Foreign computations are parameters:

- `decode: string -> Option<Vector>` stands for `np.array(json.loads(x))`.
  `None` means parsing raised.
- `distance: (Vector, Vector) -> real` stands for scipy's cosine distance.
  The similarity is `1 - distance`, or 0.0 when either embedding is absent.
- The clock reading for `submitted_on` is the parameter `now`.
- A query that raises enters `Match` as a `None` fetch result.

Three behaviours of the code that shape the model:

- Undecodable embeddings. `json.loads` raises inside the loader's `try`
  (pages/helper/match_algo.py:19-29), so one bad text makes that side load as
  `None`, and the run answers "Database fetch failed"
  (`LoadFailsIffUndecodable`, `Match`).
- Missing ids in `update_found_status`. `.one()` raises before any field is
  assigned (pages/helper/db_queries.py:128-144), and nothing is committed.
  This is modelled as `Raised(NoRowFound)` with the store unchanged.
- Result keys. The `defaultdict` takes the key `None` when the threshold is
  at most 0.0 and no similarity exceeds 0.0 (pages/helper/match_algo.py:67-82),
  so the result maps `Option<Id>` to sighting ids.

## Model

| member | source | states |
|---|---|---|
| DataModels.NewRegisteredCase | pages/helper/data_models.py:6-23 | a new registered case has status "NF", the class default `matched_with` of `None`, and the supplied submitter, name and embedding |
| DataModels.NewPublicSubmission | pages/helper/data_models.py:26-36 | a new submission has status "NF", `submitted_on` equal to the clock reading, and the supplied submitter and embedding |
| DbQueries.SelectKeys | pages/helper/db_queries.py:64-67 | a WHERE clause selects exactly the scanned keys whose record passes the filter; with a duplicate-free scan it selects each key once, in scan order |
| DbQueries.ViewingStatuses | pages/helper/db_queries.py:50-55 | "All" admits both statuses; "Found" admits only "F"; every other string, "Not Found" included, admits only "NF" |
| DbQueries.FetchRegisteredEmbeddings | pages/helper/db_queries.py:42-47 | the matching path returns the id and stored embedding of exactly the scanned cases whose status code equals the argument, each once |
| DbQueries.FetchRegisteredForViewing | pages/helper/db_queries.py:50-68 | the viewing path returns the view columns of exactly the cases whose status is admitted and, only when `submitted_by` is truthy, whose submitter equals it |
| DbQueries.FetchRegisteredCases | pages/helper/db_queries.py:36-70 | `train_data` gives (id, stored embedding) for exactly the scanned cases whose status is the requested code; otherwise the stored view columns of exactly the scanned cases passing the status mapping and, for a non-empty `submitted_by`, the submitter filter; with a repeat-free scan no id is returned twice |
| DbQueries.FetchPublicEmbeddings | pages/helper/db_queries.py:77-82 | the matching path returns the id and stored embedding of exactly the scanned submissions whose status code equals the argument, each once |
| DbQueries.FetchPublicForViewing | pages/helper/db_queries.py:84-95 | the viewing path returns the stored view columns of every scanned submission, whatever its status, and only those; with a repeat-free scan each once |
| DbQueries.FetchPublicCases | pages/helper/db_queries.py:74-95 | with `train_data`, (id, stored embedding) for exactly the scanned submissions with the requested status; without it the stored view columns of every scanned submission and nothing else; with a repeat-free scan no id is returned twice |
| DbQueries.GetRegisteredCasesCount | pages/helper/db_queries.py:182-191 | returns the whole records of exactly the cases whose submitter and status code both equal the arguments |
| DbQueries.RegisterNewCase | pages/helper/db_queries.py:23-27 | a fresh key commits and stores the record, leaving every other record as it was; a taken key raises and changes nothing |
| DbQueries.NewPublicCase | pages/helper/db_queries.py:29-33 | a fresh key commits and stores the submission, leaving every other record as it was; a taken key raises and changes nothing |
| DbQueries.UpdateFoundStatus | pages/helper/db_queries.py:128-144 | commits if and only if both ids exist: the case becomes "F" with `matched_with` set to the submission id, and the submission becomes "F"; no other record or field changes; otherwise it raises and neither map changes |
| DbQueries.DeleteRegisteredCase | pages/helper/db_queries.py:167-172 | removes the case if present and is a no-op otherwise; the public map is untouched |
| DbQueries.DeletePublicCase | pages/helper/db_queries.py:175-180 | removes the submission if present and is a no-op otherwise; the registered map is untouched |
| DbProperties.UpdateFoundStatusIdempotent | pages/helper/db_queries.py:138-144 | confirming the same pair twice gives the same store and outcome as confirming it once |
| DbProperties.ConfirmedPairLeavesMatchingPool | pages/helper/db_queries.py:138-140 | after a committed confirmation, neither record is returned by the "NF" queries of the matching path |
| DbProperties.NewCaseJoinsMatchingPool | pages/helper/db_queries.py:23-27 | a freshly registered "NF" case is returned, with its embedding, by the "NF" matching query |
| DbProperties.DeleteUndoesRegister | pages/helper/db_queries.py:167-172 | deleting a case just registered under a fresh key restores the store |
| DbProperties.DeleteUndoesNewPublicCase | pages/helper/db_queries.py:175-180 | deleting a submission just added under a fresh key restores the store |
| DbProperties.MatchingFetchIgnoresSubmitter | pages/helper/db_queries.py:42-47 | the matching path of the registered fetch gives the same rows for any `submitted_by` |
| DbProperties.PublicViewingIgnoresStatus | pages/helper/db_queries.py:84-95 | the viewing path of the public fetch gives the same rows for any `status` |
| DbProperties.DashboardCountsPartition | pages/helper/db_queries.py:182-191 | for a non-empty submitter, the "F" count plus the "NF" count equals the length of that submitter's "All" listing, and the "F" count equals the "Found" listing |
| DbProperties.DashboardCountIsCaseCount | pages/helper/db_queries.py:182-191 | when the scan lists the whole table once, the count for a submitter and status code is the number of that submitter's cases with that code in the table |
| MatchAlgo.CosineSimilarity | pages/helper/match_algo.py:10-14 | similarity is 0.0 whenever either embedding is absent, and 1.0 at distance zero |
| MatchAlgo.LoadEmbeddings | pages/helper/match_algo.py:21-25 | the `apply` + `dropna` step: never more rows than were fetched; what it keeps, drops and fails on is stated by `LoadFailsIffUndecodable`, `LoadedRowsAreDecodedTexts` and `LoadKeepsEveryTruthyRow` |
| MatchAlgo.LoadFailsIffUndecodable | pages/helper/match_algo.py:19-29 | the loader fails exactly when some non-empty stored text fails to decode |
| MatchAlgo.LoadedRowsAreDecodedTexts | pages/helper/match_algo.py:22-25 | every loaded row comes from a fetched row with a non-empty text and carries that text's decoded vector |
| MatchAlgo.LoadKeepsEveryTruthyRow | pages/helper/match_algo.py:37-40 | every fetched row with a non-empty text is loaded: only absent or empty texts are dropped, never scored |
| MatchAlgo.LoadKeepsIdsUnique | pages/helper/match_algo.py:36-41 | loading rows with distinct ids yields rows with distinct ids |
| MatchAlgo.LoadCasesData | pages/helper/match_algo.py:17-44 | the loader answers `None` exactly when the query raised or some non-empty stored text fails to decode, and otherwise the loaded rows |
| MatchAlgo.BestMatch | pages/helper/match_algo.py:67-78 | the running best is at least 0.0 and at least every row's similarity; it stays `None` exactly when its similarity is 0.0; otherwise it is the first row, in scan order, of maximal similarity |
| MatchAlgo.Append | pages/helper/match_algo.py:82 | appending to the `defaultdict` adds the sighting at the end of its key's list, creating the list if absent, and leaves other keys alone |
| MatchAlgo.MatchRows | pages/helper/match_algo.py:63-82 | every list is non-empty; with a threshold above 0.0 no key is `None` |
| MatchAlgo.Match | pages/helper/match_algo.py:47-87 | "Database fetch failed" exactly when either loader failed; "No data available" exactly when both loaded and one side is empty; success exactly when both loaded with at least one row, carrying the grouping of the loaded rows |
| MatchAlgo.MatchStore | pages/helper/match_algo.py:54-60 | against a store, both sides are read with status "NF"; "Database fetch failed" exactly when a load fails, "No data available" exactly when both load and one is empty, success exactly when both load non-empty, and success carries the grouping of the two loaded "NF" sets |
| MatchProperties.FiledUnder | pages/helper/match_algo.py:74-82 | reference list of a key: an id is in it exactly when it is an accepted sighting whose best case is that key; no repeats when sighting ids are distinct |
| MatchProperties.FiledUnderKeepsScanOrder | pages/helper/match_algo.py:63-82 | with distinct sighting ids, two sightings filed under the same key appear in the order the scan met them |
| MatchProperties.AcceptedCount | pages/helper/match_algo.py:81 | the number of sightings whose best similarity reaches the threshold is at most the number of sightings |
| MatchProperties.MatchGroupsByBest | pages/helper/match_algo.py:63-82 | the scan's grouping has a key exactly when that key's reference list is non-empty, and then holds exactly that list |
| MatchProperties.SightingFiledIffAccepted | pages/helper/match_algo.py:80-82 | a sighting is filed if and only if its best similarity is at least the threshold (inclusive), and only under its best case |
| MatchProperties.SightingFiledOnce | pages/helper/match_algo.py:63-82 | with distinct sighting ids, each id occurs in at most one list, at one position |
| MatchProperties.TotalFiledIsAcceptedCount | pages/helper/match_algo.py:63-82 | the lists together hold exactly as many entries as there are accepted sightings, so never more than there are sightings |
| MatchProperties.FiledPairIsBest | pages/helper/match_algo.py:67-82 | a filed pair's case is the first of the scan with maximal similarity to the sighting, at least as similar as every other case, and at or above the threshold |
| MatchProperties.MatchKeysAreIds | pages/helper/match_algo.py:67-82 | every key other than `None` is the id of a loaded registered case, since only a strictly better row replaces the running best id |
| MatchProperties.PositiveThresholdKeysAreIds | pages/helper/match_algo.py:67-68 | with a threshold above 0.0, such as the default 0.35, every key is a real loaded registered id |
| MatchProperties.DefaultThresholdKeysAreIds | pages/helper/match_algo.py:47-82 | with `match`'s default threshold 0.35, no sighting is filed under `None` and every key is a loaded registered id |
| MatchProperties.FiledSightingsArePublicRows | pages/helper/match_algo.py:63-64 | every filed id is the id of a scanned sighting |
| MatchProperties.LoadedRegisteredIsUnfound | pages/helper/match_algo.py:17-26 | a loaded registered row names an "NF" case with a non-empty stored embedding |
| MatchProperties.LoadedPublicIsUnfound | pages/helper/match_algo.py:32-41 | a loaded public row names an "NF" submission with a non-empty stored embedding |
| MatchProperties.MatchStoreKeysAreUnfoundCases | pages/helper/match_algo.py:54-82 | after a successful run against a store, every `Some` key is an "NF" registered case with a non-empty embedding; with a positive threshold no key is `None` |
| MatchProperties.MatchStoreSightingsAreUnfound | pages/helper/match_algo.py:55-82 | after a successful run against a store, every filed id is an "NF" submission with a non-empty embedding |
| MatchProperties.MatchStoreFilesSightingOnce | pages/helper/match_algo.py:63-82 | with a duplicate-free public scan, a successful run files each sighting at most once |
| MatchLoop.BestByLoop | pages/helper/match_algo.py:67-78 | the imperative inner loop computes the same running best as `BestMatch` |
| MatchLoop.MatchByLoops | pages/helper/match_algo.py:52-87 | the imperative nested loops build the same grouping as `MatchRows` |

`match` writes to neither store: `MatchStore` is a function from a store to a
response and returns no store.

## Left out

- Streamlit pages, login, file uploads and image files on disk (`Home.py`, `pages/*.py`): user interface, not logic.
- Face detection and embedding extraction (`pages/helper/utils.py`, `pages/helper/face_recognition_model.py`): foreign model calls. Embeddings enter only as stored text.
- JSON decoding and cosine arithmetic: `decode` and `distance` are abstract parameters. NaN similarities (zero vectors) and the `ValueError` scipy raises on vectors of different lengths are not modelled. The latter is not caught by `match`.
- `pages/helper/train_model.py` is not part of this model. It wraps sklearn and pickle, and it calls a query, `get_training_data`, that `pages/helper/db_queries.py` does not define.
- `get_registered_case_detail`, `get_public_case_detail`, `get_embedding_for_case`, `get_embedding_for_public_case`: single-row lookups used only for display.
- `create_db`, table creation, engine and session mechanics, `init_db.py`, `sample.py`, `add_column_embedding.py`, `check_embeddings.py` and all `print` logging.
- DataModels.NewRegisteredCase: leaves `matched_with` as `None`, the class default (pages/helper/data_models.py:23). The registration page passes `matched_with=""`, so cases it creates carry `Some("")`. The page is not part of this model, and the store treats any `matched_with` alike until `update_found_status` sets it.
- The `id` column's default `None`: every caller supplies a uuid, so a record without a key is not modelled.
- The `status` column is free text in the schema. The model stores only the two codes the application writes. Query parameters stay arbitrary strings.
- Concrete row order. SQL returns rows in an order the code does not fix, so the scan order is a parameter of every fetch and of `MatchStore`.
- The dictionary's key order in the `defaultdict` result: the result is a Dafny map.
- A query that itself raises: `MatchStore` reads a pure map, so only `Match` (through a `None` fetch result) models that path.

=== FILE: common.dfy ===
/**
 * Shared vocabulary of the model: optional values, record identifiers,
 * embedding vectors and a few predicates over sequences.
 */
module Common {

  /** A value that may be absent (Python's `Optional[...]` / `None`). */
  datatype Option<+T> = None | Some(value: T)

  /** Primary-key values of both tables are text (uuid strings). */
  type Id = string

  /** A decoded face embedding. */
  type Vector = seq<real>

  /** Python truthiness of an optional text column: neither `None` nor `""`. */
  predicate Truthy(s: Option<string>)
  {
    s.Some? && s.value != ""
  }

  /** No element occurs twice. */
  predicate Distinct<T(==)>(xs: seq<T>)
  {
    forall i, j :: 0 <= i < j < |xs| ==> xs[i] != xs[j]
  }

  /** `a` occurs in `xs` strictly before `b` does. */
  ghost predicate Precedes<T>(xs: seq<T>, a: T, b: T)
  {
    exists x, y :: 0 <= x < y < |xs| && xs[x] == a && xs[y] == b
  }

  /** A sequence without repeats has as many elements as the set of its elements. */
  lemma {:induction false} DistinctCardinality<T>(xs: seq<T>)
    requires Distinct(xs)
    ensures |set x | x in xs| == |xs|
    decreases |xs|
  {
    if xs != [] {
      var prefix := xs[..|xs| - 1];
      var last := xs[|xs| - 1];
      assert Distinct(prefix) by {
        forall i, j | 0 <= i < j < |prefix| ensures prefix[i] != prefix[j] {
          assert prefix[i] == xs[i] && prefix[j] == xs[j];
        }
      }
      DistinctCardinality(prefix);
      assert (set x | x in xs) == (set x | x in prefix) + {last} by {
        assert xs == prefix + [last];
      }
      assert last !in (set x | x in prefix) by {
        forall i | 0 <= i < |prefix| ensures prefix[i] != last {
          assert prefix[i] == xs[i];
        }
      }
    }
  }
}

=== FILE: data_models.dfy ===
/**
 * The two record kinds of the database: registered missing-person cases and
 * public sighting submissions. The primary key `id` is not a field here: each
 * table is a map keyed by it (see `DbQueries.Store`).
 */
module DataModels {
  import opened Common

  /** The `status` column. The application only ever writes "F" and "NF". */
  datatype Status = Found | NotFound {
    /** The text stored in the column. */
    function Code(): (code: string)
      ensures code == "F" || code == "NF"
      ensures code == "F" <==> this == Found
    {
      match this
      case Found => "F"
      case NotFound => "NF"
    }
  }

  /** Seconds on the host clock; `datetime.now` is read by the caller. */
  type Timestamp = nat

  datatype RegisteredCase = RegisteredCase(
    submittedBy: string,
    name: string,
    fathersName: string,
    age: int,
    complainantMobile: string,
    complainantName: string,
    adhaarCard: Option<string>,
    birthMarks: Option<string>,
    address: Option<string>,
    lastSeen: Option<string>,
    description: Option<string>,
    faceMesh: Option<string>,
    /** JSON text of the face embedding, if one was extracted. */
    embedding: Option<string>,
    status: Status,
    /** Id of the public submission this case was confirmed against. */
    matchedWith: Option<Id>)

  datatype PublicSubmission = PublicSubmission(
    submittedBy: Option<string>,
    mobile: Option<string>,
    location: Option<string>,
    birthMarks: Option<string>,
    faceMesh: Option<string>,
    /** JSON text of the face embedding, if one was extracted. */
    embedding: Option<string>,
    status: Status,
    submittedOn: Timestamp)

  /**
   * A registered case built from the required fields and the optional ones
   * the caller supplies (`None` for an omitted keyword): `status` takes its
   * default "NF" and `matchedWith` its default `None`.
   */
  function NewRegisteredCase(
    submittedBy: string, name: string, fathersName: string, age: int,
    complainantMobile: string, complainantName: string,
    adhaarCard: Option<string>, birthMarks: Option<string>, address: Option<string>,
    lastSeen: Option<string>, description: Option<string>, faceMesh: Option<string>,
    embedding: Option<string>): (c: RegisteredCase)
    ensures c.status == NotFound && c.status.Code() == "NF"
    ensures c.matchedWith.None?
    ensures c.submittedBy == submittedBy && c.name == name && c.embedding == embedding
  {
    RegisteredCase(submittedBy, name, fathersName, age, complainantMobile, complainantName,
                   adhaarCard, birthMarks, address, lastSeen, description, faceMesh,
                   embedding, NotFound, None)
  }

  /**
   * A public submission built from the fields the caller supplies (`None`
   * for an omitted keyword): `status` takes its default "NF" and
   * `submittedOn` the clock reading `now`.
   */
  function NewPublicSubmission(
    submittedBy: Option<string>, mobile: Option<string>, location: Option<string>,
    birthMarks: Option<string>, faceMesh: Option<string>, embedding: Option<string>,
    now: Timestamp): (p: PublicSubmission)
    ensures p.status == NotFound && p.status.Code() == "NF"
    ensures p.submittedOn == now
    ensures p.submittedBy == submittedBy && p.embedding == embedding
  {
    PublicSubmission(submittedBy, mobile, location, birthMarks, faceMesh, embedding, NotFound, now)
  }
}

=== FILE: db_properties.dfy ===
/**
 * Properties relating several calls on the case store.
 */
module DbProperties {
  import opened Common
  import opened DataModels
  import opened DbQueries

  /** Confirming the same pair twice leaves the store as confirming it once. */
  lemma UpdateFoundStatusIdempotent(s: Store, registerCaseId: Id, publicCaseId: Id)
    ensures var once := UpdateFoundStatus(s, registerCaseId, publicCaseId);
      UpdateFoundStatus(once.store, registerCaseId, publicCaseId) == once
  {
  }

  /**
   * Once a pair is confirmed, neither record is returned any more by the
   * "NF" queries the matching engine reads, whatever the scan order.
   */
  lemma ConfirmedPairLeavesMatchingPool(s: Store, registerCaseId: Id, publicCaseId: Id,
                                        regOrder: seq<Id>, pubOrder: seq<Id>)
    requires UpdateFoundStatus(s, registerCaseId, publicCaseId).outcome.Committed?
    ensures var t := UpdateFoundStatus(s, registerCaseId, publicCaseId).store;
      && (forall i :: 0 <= i < |FetchRegisteredEmbeddings(t, regOrder, "NF")| ==>
            FetchRegisteredEmbeddings(t, regOrder, "NF")[i].id != registerCaseId)
      && (forall i :: 0 <= i < |FetchPublicEmbeddings(t, pubOrder, "NF")| ==>
            FetchPublicEmbeddings(t, pubOrder, "NF")[i].id != publicCaseId)
  {
  }

  /** A newly registered case is "NF", so the matching query returns it. */
  lemma NewCaseJoinsMatchingPool(s: Store, id: Id, c: RegisteredCase, order: seq<Id>)
    requires c.status == NotFound
    requires id !in s.registered && id in order
    ensures var t := RegisterNewCase(s, id, c).store;
      exists i :: 0 <= i < |FetchRegisteredEmbeddings(t, order, "NF")|
               && FetchRegisteredEmbeddings(t, order, "NF")[i] == EmbeddingRow(id, c.embedding)
  {
    var t := RegisterNewCase(s, id, c).store;
    var rows := FetchRegisteredEmbeddings(t, order, "NF");
    assert t.registered[id].status.Code() == "NF";
    var i :| 0 <= i < |rows| && rows[i].id == id;
    assert rows[i] == EmbeddingRow(id, c.embedding);
  }

  /** Deleting a case just registered restores the store. */
  lemma DeleteUndoesRegister(s: Store, id: Id, c: RegisteredCase)
    requires id !in s.registered
    ensures DeleteRegisteredCase(RegisterNewCase(s, id, c).store, id) == s
  {
    var t := DeleteRegisteredCase(RegisterNewCase(s, id, c).store, id);
    assert t.registered == s.registered;
  }

  /** Deleting a submission just added restores the store. */
  lemma DeleteUndoesNewPublicCase(s: Store, id: Id, p: PublicSubmission)
    requires id !in s.publics
    ensures DeletePublicCase(NewPublicCase(s, id, p).store, id) == s
  {
    var t := DeletePublicCase(NewPublicCase(s, id, p).store, id);
    assert t.publics == s.publics;
  }

  /** The matching path of `fetch_registered_cases` does not look at `submitted_by`. */
  lemma MatchingFetchIgnoresSubmitter(s: Store, order: seq<Id>, a: Option<string>, b: Option<string>, status: string)
    ensures FetchRegisteredCases(s, order, a, status, true) == FetchRegisteredCases(s, order, b, status, true)
  {
  }

  /** The viewing path of `fetch_public_cases` does not look at `status`. */
  lemma PublicViewingIgnoresStatus(s: Store, order: seq<Id>, a: string, b: string)
    ensures FetchPublicCases(s, order, false, a) == FetchPublicCases(s, order, false, b)
  {
  }

  /**
   * The two dashboard counts of a submitter add up to the length of that
   * submitter's "All" listing, and the "F" count is the "Found" listing.
   */
  lemma {:induction false} DashboardCountsPartition(s: Store, order: seq<Id>, user: string)
    requires user != ""
    ensures |GetRegisteredCasesCount(s, order, user, "F")| + |GetRegisteredCasesCount(s, order, user, "NF")|
            == |FetchRegisteredForViewing(s, order, Some(user), "All")|
    ensures |GetRegisteredCasesCount(s, order, user, "F")|
            == |FetchRegisteredForViewing(s, order, Some(user), "Found")|
    decreases |order|
  {
    if order != [] {
      DashboardCountsPartition(s, order[..|order| - 1], user);
    }
  }

  /**
   * When the scan lists the whole table once, a dashboard count is the
   * number of that submitter's cases with that status code.
   */
  lemma DashboardCountIsCaseCount(s: Store, order: seq<Id>, user: string, status: string)
    requires Enumerates(order, s.registered)
    ensures |GetRegisteredCasesCount(s, order, user, status)|
            == |set id | id in s.registered && s.registered[id].submittedBy == user
                         && s.registered[id].status.Code() == status|
  {
    var rows := GetRegisteredCasesCount(s, order, user, status);
    var ids := seq(|rows|, i requires 0 <= i < |rows| => rows[i].id);
    var cases := set id | id in s.registered && s.registered[id].submittedBy == user
                          && s.registered[id].status.Code() == status;
    assert (set x | x in ids) == cases by {
      forall id | id in cases ensures id in ids {
        var i :| 0 <= i < |rows| && rows[i].id == id;
        assert ids[i] == id;
      }
    }
    DistinctCardinality(ids);
  }
}

=== FILE: db_queries.dfy ===
/**
 * The case store: the two tables as maps keyed by primary key, and every
 * query and update the application issues against them. Each `with Session`
 * block is one atomic step from a store to a store.
 *
 * The queries carry no ORDER BY, so the order in which rows come back is not
 * fixed by the code: every fetch takes that order as a parameter `order`,
 * the sequence of keys a table scan visits.
 */
module DbQueries {
  import opened Common
  import opened DataModels

  datatype Store = Store(
    registered: map<Id, RegisteredCase>,
    publics: map<Id, PublicSubmission>)

  /** Exceptions the session raises: `.one()` on no row, a commit on a taken key. */
  datatype DbError = NoRowFound | DuplicateKey

  datatype Outcome = Committed | Raised(error: DbError)

  /** The store after a mutating call, and whether the call committed. */
  datatype Transition = Transition(store: Store, outcome: Outcome)

  /** `order` lists every key of `m` exactly once. */
  predicate Enumerates<V>(order: seq<Id>, m: map<Id, V>)
  {
    && Distinct(order)
    && (forall id :: id in order ==> id in m)
    && (forall id :: id in m ==> id in order)
  }

  /**
   * The keys a `WHERE` clause selects: those of `order` present in `m` whose
   * record satisfies `keep`, in scan order.
   */
  function SelectKeys<V>(order: seq<Id>, m: map<Id, V>, keep: V -> bool): (ids: seq<Id>)
    ensures forall id :: id in ids <==> id in order && id in m && keep(m[id])
    ensures |ids| <= |order|
    ensures Distinct(order) ==> Distinct(ids)
    ensures Distinct(order) ==> forall i, j :: 0 <= i < j < |ids| ==> Precedes(order, ids[i], ids[j])
    decreases |order|
  {
    if order == [] then []
    else
      var prefix := order[..|order| - 1];
      var last := order[|order| - 1];
      var ids := SelectKeys(prefix, m, keep);
      assert forall id :: id in prefix ==> id in order;
      assert forall a, b :: Precedes(prefix, a, b) ==> Precedes(order, a, b);
      if last in m && keep(m[last]) then
        assert Distinct(order) ==> last !in prefix;
        assert forall i :: 0 <= i < |ids| ==> ids[i] in prefix;
        assert forall i :: 0 <= i < |ids| ==> Precedes(order, ids[i], last) by {
          forall i | 0 <= i < |ids|
            ensures Precedes(order, ids[i], last)
          {
            assert ids[i] in prefix;
            var x :| 0 <= x < |prefix| && prefix[x] == ids[i];
            assert order[x] == ids[i] && order[|order| - 1] == last;
          }
        }
        ids + [last]
      else
        ids
  }

  // -------------------- Row shapes returned by the queries --------------------

  /** `select(id, embedding)`: the rows the matching engine reads. */
  datatype EmbeddingRow = EmbeddingRow(id: Id, embedding: Option<string>)

  /** The columns the case viewer shows for a registered case. */
  datatype RegisteredView = RegisteredView(
    id: Id, name: string, age: int, status: Status,
    lastSeen: Option<string>, matchedWith: Option<Id>)

  /** The columns the case viewer shows for a public submission. */
  datatype PublicView = PublicView(
    id: Id, status: Status, location: Option<string>, mobile: Option<string>,
    birthMarks: Option<string>, submittedOn: Timestamp, submittedBy: Option<string>)

  /** A whole registered record with its key. */
  datatype CaseRow = CaseRow(id: Id, record: RegisteredCase)

  datatype RegisteredRows =
    | RegisteredEmbeddings(embeddingRows: seq<EmbeddingRow>)
    | RegisteredViews(viewRows: seq<RegisteredView>)

  datatype PublicRows =
    | PublicEmbeddings(embeddingRows: seq<EmbeddingRow>)
    | PublicViews(viewRows: seq<PublicView>)

  function ViewOfRegistered(id: Id, c: RegisteredCase): RegisteredView
  {
    RegisteredView(id, c.name, c.age, c.status, c.lastSeen, c.matchedWith)
  }

  function ViewOfPublic(id: Id, p: PublicSubmission): PublicView
  {
    PublicView(id, p.status, p.location, p.mobile, p.birthMarks, p.submittedOn, p.submittedBy)
  }

  // -------------------- Fetch registered cases --------------------

  /**
   * The statuses the viewing query admits for the drop-down value `status`:
   * "All" admits both, "Found" admits "F", anything else admits "NF".
   */
  function ViewingStatuses(status: string): (r: set<Status>)
    ensures Found in r <==> status == "All" || status == "Found"
    ensures NotFound in r <==> status != "Found"
  {
    if status == "All" then {Found, NotFound}
    else if status == "Found" then {Found}
    else {NotFound}
  }

  /** The viewing query's WHERE clause; the submitter filter applies only for a truthy `submittedBy`. */
  predicate ShownToViewer(c: RegisteredCase, submittedBy: Option<string>, status: string)
  {
    && c.status in ViewingStatuses(status)
    && (Truthy(submittedBy) ==> c.submittedBy == submittedBy.value)
  }

  /** `fetch_registered_cases(train_data=True)`: id and embedding of every case whose status is exactly `status`. */
  function FetchRegisteredEmbeddings(s: Store, order: seq<Id>, status: string): (rows: seq<EmbeddingRow>)
    ensures forall i :: 0 <= i < |rows| ==>
      && rows[i].id in s.registered
      && s.registered[rows[i].id].status.Code() == status
      && rows[i].embedding == s.registered[rows[i].id].embedding
    ensures forall id :: id in order && id in s.registered && s.registered[id].status.Code() == status ==>
      exists i :: 0 <= i < |rows| && rows[i].id == id
    ensures Distinct(order) ==> forall i, j :: 0 <= i < j < |rows| ==> rows[i].id != rows[j].id
  {
    var ids := SelectKeys(order, s.registered, (c: RegisteredCase) => c.status.Code() == status);
    var rows := seq(|ids|, i requires 0 <= i < |ids| => EmbeddingRow(ids[i], s.registered[ids[i]].embedding));
    assert forall id :: id in ids ==> exists i :: 0 <= i < |rows| && rows[i].id == id by {
      forall id | id in ids
        ensures exists i :: 0 <= i < |rows| && rows[i].id == id
      {
        var i :| 0 <= i < |ids| && ids[i] == id;
        assert rows[i].id == id;
      }
    }
    rows
  }

  /** `fetch_registered_cases(train_data=False)`: the viewing query. */
  function FetchRegisteredForViewing(s: Store, order: seq<Id>, submittedBy: Option<string>, status: string): (rows: seq<RegisteredView>)
    ensures forall i :: 0 <= i < |rows| ==>
      && rows[i].id in s.registered
      && ShownToViewer(s.registered[rows[i].id], submittedBy, status)
      && rows[i] == ViewOfRegistered(rows[i].id, s.registered[rows[i].id])
    ensures forall id :: id in order && id in s.registered && ShownToViewer(s.registered[id], submittedBy, status) ==>
      exists i :: 0 <= i < |rows| && rows[i].id == id
    ensures Distinct(order) ==> forall i, j :: 0 <= i < j < |rows| ==> rows[i].id != rows[j].id
  {
    var ids := SelectKeys(order, s.registered, (c: RegisteredCase) => ShownToViewer(c, submittedBy, status));
    var rows := seq(|ids|, i requires 0 <= i < |ids| => ViewOfRegistered(ids[i], s.registered[ids[i]]));
    assert forall id :: id in ids ==> exists i :: 0 <= i < |rows| && rows[i].id == id by {
      forall id | id in ids
        ensures exists i :: 0 <= i < |rows| && rows[i].id == id
      {
        var i :| 0 <= i < |ids| && ids[i] == id;
        assert rows[i].id == id;
      }
    }
    rows
  }

  /** `fetch_registered_cases`: the matching path when `trainData`, the viewing path otherwise. */
  function FetchRegisteredCases(s: Store, order: seq<Id>, submittedBy: Option<string>, status: string, trainData: bool): (r: RegisteredRows)
    ensures trainData <==> r.RegisteredEmbeddings?
    ensures trainData ==> forall i :: 0 <= i < |r.embeddingRows| ==>
      && r.embeddingRows[i].id in s.registered
      && s.registered[r.embeddingRows[i].id].status.Code() == status
      && r.embeddingRows[i].embedding == s.registered[r.embeddingRows[i].id].embedding
    ensures trainData ==> forall id :: id in order && id in s.registered && s.registered[id].status.Code() == status ==>
      exists i :: 0 <= i < |r.embeddingRows| && r.embeddingRows[i].id == id
    ensures !trainData ==> forall i :: 0 <= i < |r.viewRows| ==>
      && r.viewRows[i].id in s.registered
      && ShownToViewer(s.registered[r.viewRows[i].id], submittedBy, status)
      && r.viewRows[i] == ViewOfRegistered(r.viewRows[i].id, s.registered[r.viewRows[i].id])
    ensures !trainData ==> forall id :: id in order && id in s.registered && ShownToViewer(s.registered[id], submittedBy, status) ==>
      exists i :: 0 <= i < |r.viewRows| && r.viewRows[i].id == id
    ensures Distinct(order) ==> (trainData ==> forall i, j :: 0 <= i < j < |r.embeddingRows| ==> r.embeddingRows[i].id != r.embeddingRows[j].id)
    ensures Distinct(order) ==> (!trainData ==> forall i, j :: 0 <= i < j < |r.viewRows| ==> r.viewRows[i].id != r.viewRows[j].id)
  {
    if trainData then RegisteredEmbeddings(FetchRegisteredEmbeddings(s, order, status))
    else RegisteredViews(FetchRegisteredForViewing(s, order, submittedBy, status))
  }

  // -------------------- Fetch public cases --------------------

  /** `fetch_public_cases(train_data=True)`: id and embedding of every submission whose status is exactly `status`. */
  function FetchPublicEmbeddings(s: Store, order: seq<Id>, status: string): (rows: seq<EmbeddingRow>)
    ensures forall i :: 0 <= i < |rows| ==>
      && rows[i].id in s.publics
      && s.publics[rows[i].id].status.Code() == status
      && rows[i].embedding == s.publics[rows[i].id].embedding
    ensures forall id :: id in order && id in s.publics && s.publics[id].status.Code() == status ==>
      exists i :: 0 <= i < |rows| && rows[i].id == id
    ensures Distinct(order) ==> forall i, j :: 0 <= i < j < |rows| ==> rows[i].id != rows[j].id
  {
    var ids := SelectKeys(order, s.publics, (p: PublicSubmission) => p.status.Code() == status);
    var rows := seq(|ids|, i requires 0 <= i < |ids| => EmbeddingRow(ids[i], s.publics[ids[i]].embedding));
    assert forall id :: id in ids ==> exists i :: 0 <= i < |rows| && rows[i].id == id by {
      forall id | id in ids
        ensures exists i :: 0 <= i < |rows| && rows[i].id == id
      {
        var i :| 0 <= i < |ids| && ids[i] == id;
        assert rows[i].id == id;
      }
    }
    rows
  }

  /** `fetch_public_cases(train_data=False)`: every submission, whatever its status. */
  function FetchPublicForViewing(s: Store, order: seq<Id>): (rows: seq<PublicView>)
    ensures forall i :: 0 <= i < |rows| ==>
      rows[i].id in s.publics && rows[i] == ViewOfPublic(rows[i].id, s.publics[rows[i].id])
    ensures forall id :: id in order && id in s.publics ==> exists i :: 0 <= i < |rows| && rows[i].id == id
    ensures Distinct(order) ==> forall i, j :: 0 <= i < j < |rows| ==> rows[i].id != rows[j].id
  {
    var ids := SelectKeys(order, s.publics, (p: PublicSubmission) => true);
    var rows := seq(|ids|, i requires 0 <= i < |ids| => ViewOfPublic(ids[i], s.publics[ids[i]]));
    assert forall id :: id in ids ==> exists i :: 0 <= i < |rows| && rows[i].id == id by {
      forall id | id in ids
        ensures exists i :: 0 <= i < |rows| && rows[i].id == id
      {
        var i :| 0 <= i < |ids| && ids[i] == id;
        assert rows[i].id == id;
      }
    }
    rows
  }

  /** `fetch_public_cases`: the matching path when `trainData`, otherwise every row and `status` unused. */
  function FetchPublicCases(s: Store, order: seq<Id>, trainData: bool, status: string): (r: PublicRows)
    ensures trainData <==> r.PublicEmbeddings?
    ensures trainData ==> forall i :: 0 <= i < |r.embeddingRows| ==>
      && r.embeddingRows[i].id in s.publics
      && s.publics[r.embeddingRows[i].id].status.Code() == status
      && r.embeddingRows[i].embedding == s.publics[r.embeddingRows[i].id].embedding
    ensures trainData ==> forall id :: id in order && id in s.publics && s.publics[id].status.Code() == status ==>
      exists i :: 0 <= i < |r.embeddingRows| && r.embeddingRows[i].id == id
    ensures !trainData ==> forall i :: 0 <= i < |r.viewRows| ==>
      r.viewRows[i].id in s.publics && r.viewRows[i] == ViewOfPublic(r.viewRows[i].id, s.publics[r.viewRows[i].id])
    ensures !trainData ==> forall id :: id in order && id in s.publics ==>
      exists i :: 0 <= i < |r.viewRows| && r.viewRows[i].id == id
    ensures Distinct(order) ==> (trainData ==> forall i, j :: 0 <= i < j < |r.embeddingRows| ==> r.embeddingRows[i].id != r.embeddingRows[j].id)
    ensures Distinct(order) ==> (!trainData ==> forall i, j :: 0 <= i < j < |r.viewRows| ==> r.viewRows[i].id != r.viewRows[j].id)
  {
    if trainData then PublicEmbeddings(FetchPublicEmbeddings(s, order, status))
    else PublicViews(FetchPublicForViewing(s, order))
  }

  // -------------------- Dashboard counts --------------------

  /** `get_registered_cases_count`: the whole records of `submittedBy` whose status is exactly `status`. */
  function GetRegisteredCasesCount(s: Store, order: seq<Id>, submittedBy: string, status: string): (rows: seq<CaseRow>)
    ensures forall i :: 0 <= i < |rows| ==>
      && rows[i].id in s.registered
      && rows[i].record == s.registered[rows[i].id]
      && rows[i].record.submittedBy == submittedBy
      && rows[i].record.status.Code() == status
    ensures forall id ::
      (id in order && id in s.registered && s.registered[id].submittedBy == submittedBy
       && s.registered[id].status.Code() == status) ==>
      exists i :: 0 <= i < |rows| && rows[i].id == id
    ensures Distinct(order) ==> forall i, j :: 0 <= i < j < |rows| ==> rows[i].id != rows[j].id
  {
    var ids := SelectKeys(order, s.registered,
                          (c: RegisteredCase) => c.submittedBy == submittedBy && c.status.Code() == status);
    var rows := seq(|ids|, i requires 0 <= i < |ids| => CaseRow(ids[i], s.registered[ids[i]]));
    assert forall id :: id in ids ==> exists i :: 0 <= i < |rows| && rows[i].id == id by {
      forall id | id in ids
        ensures exists i :: 0 <= i < |rows| && rows[i].id == id
      {
        var i :| 0 <= i < |ids| && ids[i] == id;
        assert rows[i].id == id;
      }
    }
    rows
  }

  // -------------------- Registration --------------------

  /** `register_new_case`: add and commit; a taken key makes the commit raise and nothing is stored. */
  function RegisterNewCase(s: Store, id: Id, c: RegisteredCase): (t: Transition)
    ensures t.outcome.Committed? <==> id !in s.registered
    ensures t.outcome.Raised? ==> t.outcome.error == DuplicateKey && t.store == s
    ensures t.outcome.Committed? ==>
      && t.store.registered.Keys == s.registered.Keys + {id}
      && t.store.registered[id] == c
      && forall k :: k in s.registered ==> t.store.registered[k] == s.registered[k]
    ensures t.store.publics == s.publics
  {
    if id in s.registered then Transition(s, Raised(DuplicateKey))
    else Transition(s.(registered := s.registered[id := c]), Committed)
  }

  /** `new_public_case`: add and commit; a taken key makes the commit raise and nothing is stored. */
  function NewPublicCase(s: Store, id: Id, p: PublicSubmission): (t: Transition)
    ensures t.outcome.Committed? <==> id !in s.publics
    ensures t.outcome.Raised? ==> t.outcome.error == DuplicateKey && t.store == s
    ensures t.outcome.Committed? ==>
      && t.store.publics.Keys == s.publics.Keys + {id}
      && t.store.publics[id] == p
      && forall k :: k in s.publics ==> t.store.publics[k] == s.publics[k]
    ensures t.store.registered == s.registered
  {
    if id in s.publics then Transition(s, Raised(DuplicateKey))
    else Transition(s.(publics := s.publics[id := p]), Committed)
  }

  // -------------------- Confirming a match --------------------

  /**
   * `update_found_status`: both `.one()` lookups must find their row before
   * any field is assigned; then the case is marked found with the cross
   * reference and the submission is marked found, in one commit.
   */
  function UpdateFoundStatus(s: Store, registerCaseId: Id, publicCaseId: Id): (t: Transition)
    ensures t.outcome.Committed? <==> registerCaseId in s.registered && publicCaseId in s.publics
    ensures t.outcome.Raised? ==> t.outcome.error == NoRowFound && t.store == s
    ensures t.outcome.Committed? ==>
      && t.store.registered.Keys == s.registered.Keys
      && t.store.publics.Keys == s.publics.Keys
      && t.store.registered[registerCaseId].status == Found
      && t.store.registered[registerCaseId].matchedWith == Some(publicCaseId)
      && t.store.publics[publicCaseId].status == Found
      // every other field of the two records is kept
      && t.store.registered[registerCaseId]
           == s.registered[registerCaseId].(status := Found, matchedWith := Some(publicCaseId))
      && t.store.publics[publicCaseId] == s.publics[publicCaseId].(status := Found)
    ensures forall k :: k in s.registered && k != registerCaseId ==>
      k in t.store.registered && t.store.registered[k] == s.registered[k]
    ensures forall k :: k in s.publics && k != publicCaseId ==>
      k in t.store.publics && t.store.publics[k] == s.publics[k]
  {
    if registerCaseId !in s.registered then Transition(s, Raised(NoRowFound))
    else if publicCaseId !in s.publics then Transition(s, Raised(NoRowFound))
    else
      var regCase := s.registered[registerCaseId].(status := Found, matchedWith := Some(publicCaseId));
      var pubCase := s.publics[publicCaseId].(status := Found);
      Transition(Store(s.registered[registerCaseId := regCase], s.publics[publicCaseId := pubCase]), Committed)
  }

  // -------------------- Deletion --------------------

  /** `delete_registered_case`: remove the row if `session.get` finds it, otherwise do nothing. */
  function DeleteRegisteredCase(s: Store, id: Id): (t: Store)
    ensures t.registered.Keys == s.registered.Keys - {id}
    ensures forall k :: k in t.registered ==> t.registered[k] == s.registered[k]
    ensures t.publics == s.publics
  {
    if id in s.registered then s.(registered := s.registered - {id}) else s
  }

  /** `delete_public_case`: remove the row if `session.get` finds it, otherwise do nothing. */
  function DeletePublicCase(s: Store, id: Id): (t: Store)
    ensures t.publics.Keys == s.publics.Keys - {id}
    ensures forall k :: k in t.publics ==> t.publics[k] == s.publics[k]
    ensures t.registered == s.registered
  {
    if id in s.publics then s.(publics := s.publics - {id}) else s
  }
}

=== FILE: match_algo.dfy ===
/**
 * The sighting-to-case matching engine: load the "NF" embeddings of both
 * tables, then file every public sighting under the registered case it is
 * most similar to, when that similarity reaches the threshold.
 *
 * Two computations are foreign and enter as parameters:
 *  - `decode`, which turns the stored JSON text into a vector and yields
 *    `None` where parsing raises;
 *  - `distance`, the cosine distance between two vectors.
 */
module MatchAlgo {
  import opened Common
  import opened DataModels
  import opened DbQueries

  const DEFAULT_THRESHOLD: real := 0.35
  const FETCH_FAILED: string := "Database fetch failed"
  const NO_DATA: string := "No data available"

  type Decoder = string -> Option<Vector>
  type Distance = (Vector, Vector) -> real

  /** A row whose embedding has been decoded. */
  datatype LoadedRow = LoadedRow(id: Id, vector: Vector)

  /** Registered ids (or `None`) mapped to the sighting ids filed under them. */
  type Grouping = map<Option<Id>, seq<Id>>

  /** The outcome of `match`: status False with a message, or status True with the grouping. */
  datatype MatchResponse = Failed(message: string) | Matched(result: Grouping)

  /** The running best of the inner loop: its id (`None` at the start) and similarity. */
  datatype Choice = Choice(id: Option<Id>, similarity: real)

  /** No two rows share an id. */
  predicate UniqueIds(rows: seq<LoadedRow>)
  {
    forall i, j :: 0 <= i < j < |rows| ==> rows[i].id != rows[j].id
  }

  /** No two fetched rows share an id. */
  predicate UniqueRowIds(rows: seq<EmbeddingRow>)
  {
    forall i, j :: 0 <= i < j < |rows| ==> rows[i].id != rows[j].id
  }

  // -------------------- Similarity --------------------

  /** `cosine_similarity`: one minus the cosine distance, and 0.0 when either embedding is absent. */
  function CosineSimilarity(distance: Distance, a: Option<Vector>, b: Option<Vector>): (sim: real)
    ensures a.None? || b.None? ==> sim == 0.0
    ensures a.Some? && b.Some? && distance(a.value, b.value) == 0.0 ==> sim == 1.0
  {
    if a.None? || b.None? then 0.0 else 1.0 - distance(a.value, b.value)
  }

  /** The similarity the inner loop computes between a sighting and a registered row. */
  function Score(distance: Distance, sighting: Vector, r: LoadedRow): real
  {
    CosineSimilarity(distance, Some(sighting), Some(r.vector))
  }

  // -------------------- Loading embeddings --------------------

  /**
   * The embedding column after `apply` and `dropna`: rows whose text is
   * `None` or empty are dropped; every other text is decoded, and one text
   * that fails to decode makes the whole load fail.
   */
  function LoadEmbeddings(rows: seq<EmbeddingRow>, decode: Decoder): (r: Option<seq<LoadedRow>>)
    ensures r.Some? ==> |r.value| <= |rows|
    decreases |rows|
  {
    if rows == [] then Some([])
    else
      var row := rows[|rows| - 1];
      match LoadEmbeddings(rows[..|rows| - 1], decode)
      case None => None
      case Some(loaded) =>
        if !Truthy(row.embedding) then Some(loaded)
        else
          match decode(row.embedding.value)
          case None => None
          case Some(v) => Some(loaded + [LoadedRow(row.id, v)])
  }

  /** One stored text that does not decode, and only that, makes the load fail. */
  lemma {:induction false} LoadFailsIffUndecodable(rows: seq<EmbeddingRow>, decode: Decoder)
    ensures LoadEmbeddings(rows, decode).None? <==>
      exists i :: 0 <= i < |rows| && Truthy(rows[i].embedding) && decode(rows[i].embedding.value).None?
    decreases |rows|
  {
    if rows != [] {
      var prefix := rows[..|rows| - 1];
      LoadFailsIffUndecodable(prefix, decode);
      assert forall i :: 0 <= i < |prefix| ==> prefix[i] == rows[i];
    }
  }

  /** Every loaded row comes from a fetched row with a non-empty text, decoded. */
  lemma {:induction false} LoadedRowsAreDecodedTexts(rows: seq<EmbeddingRow>, decode: Decoder)
    requires LoadEmbeddings(rows, decode).Some?
    ensures var loaded := LoadEmbeddings(rows, decode).value;
      forall j :: 0 <= j < |loaded| ==>
        exists i :: 0 <= i < |rows| && rows[i].id == loaded[j].id && Truthy(rows[i].embedding)
                  && decode(rows[i].embedding.value) == Some(loaded[j].vector)
    decreases |rows|
  {
    if rows != [] {
      var prefix := rows[..|rows| - 1];
      var row := rows[|rows| - 1];
      LoadedRowsAreDecodedTexts(prefix, decode);
      assert forall i :: 0 <= i < |prefix| ==> prefix[i] == rows[i];
      var loaded := LoadEmbeddings(prefix, decode).value;
      var next := LoadEmbeddings(rows, decode).value;
      forall j | 0 <= j < |next|
        ensures exists i :: 0 <= i < |rows| && rows[i].id == next[j].id && Truthy(rows[i].embedding)
                          && decode(rows[i].embedding.value) == Some(next[j].vector)
      {
        if j < |loaded| {
          assert next[j] == loaded[j];
          var i :| 0 <= i < |prefix| && prefix[i].id == loaded[j].id && Truthy(prefix[i].embedding)
                   && decode(prefix[i].embedding.value) == Some(loaded[j].vector);
          assert rows[i] == prefix[i];
        } else {
          assert next[j] == LoadedRow(row.id, decode(row.embedding.value).value);
          assert rows[|rows| - 1] == row;
        }
      }
    }
  }

  /** Every fetched row with a non-empty text is loaded: only `None` and `""` are dropped. */
  lemma {:induction false} LoadKeepsEveryTruthyRow(rows: seq<EmbeddingRow>, decode: Decoder)
    requires LoadEmbeddings(rows, decode).Some?
    ensures var loaded := LoadEmbeddings(rows, decode).value;
      forall i :: 0 <= i < |rows| && Truthy(rows[i].embedding) ==>
        exists j :: 0 <= j < |loaded| && loaded[j].id == rows[i].id
    decreases |rows|
  {
    if rows != [] {
      var prefix := rows[..|rows| - 1];
      var row := rows[|rows| - 1];
      LoadKeepsEveryTruthyRow(prefix, decode);
      assert forall i :: 0 <= i < |prefix| ==> prefix[i] == rows[i];
      var loaded := LoadEmbeddings(prefix, decode).value;
      var next := LoadEmbeddings(rows, decode).value;
      assert forall j :: 0 <= j < |loaded| ==> next[j] == loaded[j];
      forall i | 0 <= i < |rows| && Truthy(rows[i].embedding)
        ensures exists j :: 0 <= j < |next| && next[j].id == rows[i].id
      {
        if i < |prefix| {
          assert prefix[i] == rows[i];
          var j :| 0 <= j < |loaded| && loaded[j].id == prefix[i].id;
          assert next[j] == loaded[j];
        } else {
          assert next[|loaded|].id == row.id;
        }
      }
    }
  }

  /** Loading keeps primary keys unique. */
  lemma {:induction false} LoadKeepsIdsUnique(rows: seq<EmbeddingRow>, decode: Decoder)
    requires LoadEmbeddings(rows, decode).Some?
    requires UniqueRowIds(rows)
    ensures UniqueIds(LoadEmbeddings(rows, decode).value)
    decreases |rows|
  {
    if rows != [] {
      var prefix := rows[..|rows| - 1];
      var row := rows[|rows| - 1];
      assert forall i :: 0 <= i < |prefix| ==> prefix[i] == rows[i];
      LoadKeepsIdsUnique(prefix, decode);
      LoadedRowsAreDecodedTexts(prefix, decode);
      var loaded := LoadEmbeddings(prefix, decode).value;
      assert forall j :: 0 <= j < |loaded| ==> loaded[j].id != row.id;
    }
  }

  /**
   * `get_registered_cases_data` / `get_public_cases_data`: `None` when the
   * query raised (`fetched` is `None`) or a stored text failed to decode.
   */
  function LoadCasesData(fetched: Option<seq<EmbeddingRow>>, decode: Decoder): (r: Option<seq<LoadedRow>>)
    ensures r.None? <==> fetched.None? || exists i :: 0 <= i < |fetched.value| && Truthy(fetched.value[i].embedding)
                                                   && decode(fetched.value[i].embedding.value).None?
    ensures fetched.Some? ==> r == LoadEmbeddings(fetched.value, decode)
  {
    if fetched.None? then None
    else
      LoadFailsIffUndecodable(fetched.value, decode);
      LoadEmbeddings(fetched.value, decode)
  }

  // -------------------- The inner loop: best registered case --------------------

  /** Index `i` holds the largest score, and no earlier row reaches it. */
  ghost predicate FirstMaximal(distance: Distance, sighting: Vector, regs: seq<LoadedRow>, i: int)
  {
    && 0 <= i < |regs|
    && (forall j :: 0 <= j < |regs| ==> Score(distance, sighting, regs[j]) <= Score(distance, sighting, regs[i]))
    && (forall j :: 0 <= j < i ==> Score(distance, sighting, regs[j]) < Score(distance, sighting, regs[i]))
  }

  /**
   * The running best after scanning `regs`: it starts at (`None`, 0.0) and is
   * replaced only on a strictly greater similarity. The result is the first
   * maximal row when that maximum exceeds 0.0, and (`None`, 0.0) otherwise.
   */
  function BestMatch(distance: Distance, sighting: Vector, regs: seq<LoadedRow>): (c: Choice)
    ensures c.similarity >= 0.0
    ensures forall j :: 0 <= j < |regs| ==> Score(distance, sighting, regs[j]) <= c.similarity
    ensures c.id.None? <==> c.similarity == 0.0
    ensures c.id.Some? ==> exists i :: FirstMaximal(distance, sighting, regs, i)
                                   && regs[i].id == c.id.value
                                   && Score(distance, sighting, regs[i]) == c.similarity
    decreases |regs|
  {
    if regs == [] then Choice(None, 0.0)
    else
      var prefix := regs[..|regs| - 1];
      var last := regs[|regs| - 1];
      var best := BestMatch(distance, sighting, prefix);
      var sim := Score(distance, sighting, last);
      assert forall j :: 0 <= j < |prefix| ==> prefix[j] == regs[j];
      if sim > best.similarity then
        assert FirstMaximal(distance, sighting, regs, |regs| - 1);
        Choice(Some(last.id), sim)
      else
        assert best.id.Some? ==> exists i :: FirstMaximal(distance, sighting, regs, i)
                                          && regs[i].id == best.id.value
                                          && Score(distance, sighting, regs[i]) == best.similarity by {
          if best.id.Some? {
            var i :| FirstMaximal(distance, sighting, prefix, i)
                     && prefix[i].id == best.id.value
                     && Score(distance, sighting, prefix[i]) == best.similarity;
            assert FirstMaximal(distance, sighting, regs, i);
          }
        }
        best
  }

  // -------------------- The outer loop: filing sightings --------------------

  /** Whether the best similarity of `p` reaches the (inclusive) threshold. */
  predicate Accepts(distance: Distance, regs: seq<LoadedRow>, threshold: real, p: LoadedRow)
  {
    BestMatch(distance, p.vector, regs).similarity >= threshold
  }

  /** `matched_cases[key].append(sighting)` on a `defaultdict(list)`. */
  function Append(m: Grouping, key: Option<Id>, sighting: Id): (m': Grouping)
    ensures m'.Keys == m.Keys + {key}
    ensures key in m ==> m'[key] == m[key] + [sighting]
    ensures key !in m ==> m'[key] == [sighting]
    ensures forall k :: k in m && k != key ==> m'[k] == m[k]
  {
    m[key := (if key in m then m[key] else []) + [sighting]]
  }

  /**
   * The outer loop of `match` over already loaded rows: each sighting is
   * appended, in scan order, to the list of its best registered id when its
   * best similarity is at least `threshold`.
   */
  function MatchRows(distance: Distance, pubs: seq<LoadedRow>, regs: seq<LoadedRow>, threshold: real): (m: Grouping)
    ensures forall k :: k in m ==> |m[k]| > 0
    ensures threshold > 0.0 ==> forall k :: k in m ==> k.Some?
    decreases |pubs|
  {
    if pubs == [] then map[]
    else
      var m := MatchRows(distance, pubs[..|pubs| - 1], regs, threshold);
      var p := pubs[|pubs| - 1];
      var best := BestMatch(distance, p.vector, regs);
      if best.similarity >= threshold then Append(m, best.id, p.id) else m
  }

  /**
   * `match`: "Database fetch failed" when either side could not be loaded,
   * "No data available" when either loaded side is empty, and otherwise the
   * grouping of the loaded sightings against the loaded cases.
   */
  function Match(regFetched: Option<seq<EmbeddingRow>>, pubFetched: Option<seq<EmbeddingRow>>,
                 decode: Decoder, distance: Distance, threshold: real): (r: MatchResponse)
    ensures r == Failed(FETCH_FAILED) <==>
      LoadCasesData(regFetched, decode).None? || LoadCasesData(pubFetched, decode).None?
    ensures r == Failed(NO_DATA) <==>
      && LoadCasesData(regFetched, decode).Some? && LoadCasesData(pubFetched, decode).Some?
      && (|LoadCasesData(regFetched, decode).value| == 0 || |LoadCasesData(pubFetched, decode).value| == 0)
    ensures r.Matched? <==>
      && LoadCasesData(regFetched, decode).Some? && LoadCasesData(pubFetched, decode).Some?
      && |LoadCasesData(regFetched, decode).value| > 0 && |LoadCasesData(pubFetched, decode).value| > 0
    ensures r.Matched? ==>
      && regFetched.Some? && pubFetched.Some?
      && r.result == MatchRows(distance, LoadCasesData(pubFetched, decode).value,
                               LoadCasesData(regFetched, decode).value, threshold)
  {
    var registered := LoadCasesData(regFetched, decode);
    var publics := LoadCasesData(pubFetched, decode);
    if registered.None? || publics.None? then Failed(FETCH_FAILED)
    else if |registered.value| == 0 || |publics.value| == 0 then Failed(NO_DATA)
    else Matched(MatchRows(distance, publics.value, registered.value, threshold))
  }

  /** `match` run against a store: both sides read with status "NF"; nothing is written. */
  function MatchStore(s: Store, regOrder: seq<Id>, pubOrder: seq<Id>,
                      decode: Decoder, distance: Distance, threshold: real): (r: MatchResponse)
    ensures var regs := LoadEmbeddings(FetchRegisteredEmbeddings(s, regOrder, "NF"), decode);
            var pubs := LoadEmbeddings(FetchPublicEmbeddings(s, pubOrder, "NF"), decode);
      && (r == Failed(FETCH_FAILED) <==> regs.None? || pubs.None?)
      && (r == Failed(NO_DATA) <==> regs.Some? && pubs.Some? && (|regs.value| == 0 || |pubs.value| == 0))
      && (r.Matched? <==> regs.Some? && pubs.Some? && |regs.value| > 0 && |pubs.value| > 0)
      && (r.Matched? ==> regs.Some? && pubs.Some? && r.result == MatchRows(distance, pubs.value, regs.value, threshold))
  {
    Match(Some(FetchRegisteredEmbeddings(s, regOrder, "NF")),
          Some(FetchPublicEmbeddings(s, pubOrder, "NF")),
          decode, distance, threshold)
  }
}

=== FILE: match_loop.dfy ===
/**
 * The nested loops of `match` written as loops: the outer one over the
 * sightings, the inner one keeping the running best over the registered
 * cases. They compute the same grouping as `MatchAlgo.MatchRows`.
 */
module MatchLoop {
  import opened Common
  import opened MatchAlgo

  /** The inner loop: the running best over the registered cases for one sighting. */
  method BestByLoop(distance: Distance, sighting: Vector, regs: seq<LoadedRow>) returns (best: Choice)
    ensures best == BestMatch(distance, sighting, regs)
  {
    var bestId: Option<Id> := None;
    var bestSimilarity: real := 0.0;
    var j := 0;
    while j < |regs|
      invariant 0 <= j <= |regs|
      invariant Choice(bestId, bestSimilarity) == BestMatch(distance, sighting, regs[..j])
    {
      var sim := CosineSimilarity(distance, Some(sighting), Some(regs[j].vector));
      if sim > bestSimilarity {
        bestSimilarity := sim;
        bestId := Some(regs[j].id);
      }
      assert regs[..j + 1][..j] == regs[..j];
      j := j + 1;
    }
    assert regs[..j] == regs;
    best := Choice(bestId, bestSimilarity);
  }

  /** The outer loop: file each sighting whose best similarity reaches the threshold. */
  method MatchByLoops(distance: Distance, pubs: seq<LoadedRow>, regs: seq<LoadedRow>, threshold: real)
    returns (matched: Grouping)
    ensures matched == MatchRows(distance, pubs, regs, threshold)
  {
    matched := map[];
    var i := 0;
    while i < |pubs|
      invariant 0 <= i <= |pubs|
      invariant matched == MatchRows(distance, pubs[..i], regs, threshold)
    {
      var pub := pubs[i];
      var best := BestByLoop(distance, pub.vector, regs);
      if best.similarity >= threshold {
        var list := if best.id in matched then matched[best.id] else [];
        matched := matched[best.id := list + [pub.id]];
      }
      assert pubs[..i + 1][..i] == pubs[..i];
      assert pubs[..i + 1][i] == pub;
      i := i + 1;
    }
    assert pubs[..i] == pubs;
  }
}

=== FILE: match_properties.dfy ===
/**
 * What the grouping built by `match` means, stated against an independent
 * per-key description, and what a successful run against the store promises
 * about the records it names.
 */
module MatchProperties {
  import opened Common
  import opened DataModels
  import opened DbQueries
  import opened MatchAlgo

  /**
   * Reference definition of one list of the grouping: the ids of the
   * sightings, in scan order, that are accepted and whose best case is `key`.
   */
  function FiledUnder(distance: Distance, pubs: seq<LoadedRow>, regs: seq<LoadedRow>,
                      threshold: real, key: Option<Id>): (ids: seq<Id>)
    ensures forall id :: id in ids <==>
      exists i :: 0 <= i < |pubs| && pubs[i].id == id && Accepts(distance, regs, threshold, pubs[i])
                && BestMatch(distance, pubs[i].vector, regs).id == key
    ensures UniqueIds(pubs) ==> Distinct(ids)
    decreases |pubs|
  {
    if pubs == [] then []
    else
      var prefix := pubs[..|pubs| - 1];
      var p := pubs[|pubs| - 1];
      var ids := FiledUnder(distance, prefix, regs, threshold, key);
      assert forall i :: 0 <= i < |prefix| ==> prefix[i] == pubs[i];
      if Accepts(distance, regs, threshold, p) && BestMatch(distance, p.vector, regs).id == key then
        assert UniqueIds(pubs) ==> p.id !in ids;
        ids + [p.id]
      else
        ids
  }

  /** With distinct sighting ids, a reference list keeps the scan order of the sightings. */
  lemma {:induction false} FiledUnderKeepsScanOrder(distance: Distance, pubs: seq<LoadedRow>, regs: seq<LoadedRow>,
                                                    threshold: real, key: Option<Id>, a: nat, b: nat)
    requires UniqueIds(pubs) && a < b < |pubs|
    requires pubs[a].id in FiledUnder(distance, pubs, regs, threshold, key)
    requires pubs[b].id in FiledUnder(distance, pubs, regs, threshold, key)
    ensures Precedes(FiledUnder(distance, pubs, regs, threshold, key), pubs[a].id, pubs[b].id)
    decreases |pubs|
  {
    var prefix := pubs[..|pubs| - 1];
    var last := pubs[|pubs| - 1];
    var ids := FiledUnder(distance, prefix, regs, threshold, key);
    var tail := FiledUnderUnfold(distance, pubs, regs, threshold, key);
    assert pubs[a].id != last.id;
    InPrefixOfConcat(ids, tail, pubs[a].id);
    if b == |pubs| - 1 {
      IdFiledFromPrefix(distance, pubs, regs, threshold, key);
      PrecedesSnoc(ids, pubs[a].id, pubs[b].id);
    } else {
      assert pubs[b].id != last.id;
      InPrefixOfConcat(ids, tail, pubs[b].id);
      UniqueIdsPrefix(pubs);
      assert prefix[a] == pubs[a] && prefix[b] == pubs[b];
      FiledUnderKeepsScanOrder(distance, prefix, regs, threshold, key, a, b);
      PrecedesGrows(ids, tail, pubs[a].id, pubs[b].id);
    }
  }

  /**
   * One step of a reference list: the list of the scan is the list of the
   * scan before the last sighting, followed by `tail`, which holds the last
   * sighting's id when it is filed under `key` and nothing otherwise.
   */
  lemma FiledUnderUnfold(distance: Distance, pubs: seq<LoadedRow>, regs: seq<LoadedRow>, threshold: real, key: Option<Id>)
    returns (tail: seq<Id>)
    requires |pubs| > 0
    ensures FiledUnder(distance, pubs, regs, threshold, key)
            == FiledUnder(distance, pubs[..|pubs| - 1], regs, threshold, key) + tail
    ensures tail == [] || tail == [pubs[|pubs| - 1].id]
  {
    var last := pubs[|pubs| - 1];
    tail := if Accepts(distance, regs, threshold, last) && BestMatch(distance, last.vector, regs).id == key
            then [last.id] else [];
  }

  /** Dropping the last row keeps ids unique. */
  lemma UniqueIdsPrefix(pubs: seq<LoadedRow>)
    requires UniqueIds(pubs) && |pubs| > 0
    ensures UniqueIds(pubs[..|pubs| - 1])
  {
    assert forall i :: 0 <= i < |pubs| - 1 ==> pubs[..|pubs| - 1][i] == pubs[i];
  }

  /** The last sighting is not in any reference list of the scan before it. */
  lemma IdFiledFromPrefix(distance: Distance, pubs: seq<LoadedRow>, regs: seq<LoadedRow>, threshold: real, key: Option<Id>)
    requires UniqueIds(pubs) && |pubs| > 0
    ensures pubs[|pubs| - 1].id !in FiledUnder(distance, pubs[..|pubs| - 1], regs, threshold, key)
  {
    var prefix := pubs[..|pubs| - 1];
    forall x | 0 <= x < |prefix| ensures prefix[x].id != pubs[|pubs| - 1].id {
      assert prefix[x] == pubs[x];
    }
  }

  /** An element of `xs + ys` that is not in `ys` is in `xs`. */
  lemma InPrefixOfConcat<T>(xs: seq<T>, ys: seq<T>, u: T)
    requires u in xs + ys && u !in ys
    ensures u in xs
  {
    var k :| 0 <= k < |xs + ys| && (xs + ys)[k] == u;
    if k >= |xs| {
      assert ys[k - |xs|] == u;
    }
  }

  /** Appending `v` puts it after every element already present. */
  lemma PrecedesSnoc<T>(xs: seq<T>, u: T, v: T)
    requires u in xs
    ensures Precedes(xs + [v], u, v)
  {
    var x :| 0 <= x < |xs| && xs[x] == u;
    assert (xs + [v])[x] == u && (xs + [v])[|xs|] == v;
  }

  /** Appending keeps an existing order. */
  lemma PrecedesGrows<T>(xs: seq<T>, ys: seq<T>, u: T, v: T)
    requires Precedes(xs, u, v)
    ensures Precedes(xs + ys, u, v)
  {
    var x, y :| 0 <= x < y < |xs| && xs[x] == u && xs[y] == v;
    assert (xs + ys)[x] == u && (xs + ys)[y] == v;
  }

  /** Number of sightings whose best similarity reaches the threshold. */
  function AcceptedCount(distance: Distance, pubs: seq<LoadedRow>, regs: seq<LoadedRow>, threshold: real): (n: nat)
    ensures n <= |pubs|
    decreases |pubs|
  {
    if pubs == [] then 0
    else
      AcceptedCount(distance, pubs[..|pubs| - 1], regs, threshold)
      + (if Accepts(distance, regs, threshold, pubs[|pubs| - 1]) then 1 else 0)
  }

  /** Some key of a non-empty grouping. */
  ghost function AnyKey(m: Grouping): (k: Option<Id>)
    requires m.Keys != {}
    ensures k in m
  {
    var k :| k in m; k
  }

  /** The sum of the lengths of all lists of a grouping. */
  ghost function TotalFiled(m: Grouping): nat
    decreases |m.Keys|
  {
    if m.Keys == {} then 0
    else
      var k := AnyKey(m);
      assert (m - {k}).Keys == m.Keys - {k};
      |m[k]| + TotalFiled(m - {k})
  }

  /** `TotalFiled` may take its lists in any order. */
  lemma {:induction false} TotalFiledRemove(m: Grouping, key: Option<Id>)
    requires key in m
    ensures TotalFiled(m) == |m[key]| + TotalFiled(m - {key})
    decreases |m.Keys|
  {
    var k := AnyKey(m);
    assert TotalFiled(m) == |m[k]| + TotalFiled(m - {k});
    if k != key {
      var withoutK := m - {k};
      var withoutKey := m - {key};
      assert withoutK.Keys == m.Keys - {k};
      assert withoutKey.Keys == m.Keys - {key};
      TotalFiledRemove(withoutK, key);
      TotalFiledRemove(withoutKey, k);
      assert withoutK - {key} == withoutKey - {k};
    }
  }

  /** Appending one sighting adds one to the total. */
  lemma TotalFiledAppend(m: Grouping, key: Option<Id>, sighting: Id)
    ensures TotalFiled(Append(m, key, sighting)) == TotalFiled(m) + 1
  {
    var m' := Append(m, key, sighting);
    TotalFiledRemove(m', key);
    if key in m {
      TotalFiledRemove(m, key);
      assert m' - {key} == m - {key};
    } else {
      assert m' - {key} == m;
    }
  }

  /**
   * The grouping built by the scan holds, under every key, exactly the
   * reference list `FiledUnder` of that key, and holds no other key.
   */
  lemma {:induction false} MatchGroupsByBest(distance: Distance, pubs: seq<LoadedRow>, regs: seq<LoadedRow>, threshold: real)
    ensures var m := MatchRows(distance, pubs, regs, threshold);
      forall key :: (key in m <==> |FiledUnder(distance, pubs, regs, threshold, key)| > 0)
                 && (key in m ==> m[key] == FiledUnder(distance, pubs, regs, threshold, key))
    decreases |pubs|
  {
    if pubs != [] {
      var prefix := pubs[..|pubs| - 1];
      MatchGroupsByBest(distance, prefix, regs, threshold);
    }
  }

  /**
   * A sighting is filed if and only if its best similarity is at least the
   * threshold (the boundary is inclusive), and only ever under its best case.
   */
  lemma SightingFiledIffAccepted(distance: Distance, pubs: seq<LoadedRow>, regs: seq<LoadedRow>,
                                 threshold: real, i: nat)
    requires UniqueIds(pubs) && i < |pubs|
    ensures var m := MatchRows(distance, pubs, regs, threshold);
            var best := BestMatch(distance, pubs[i].vector, regs);
      && (best.similarity >= threshold ==> best.id in m && pubs[i].id in m[best.id])
      && (forall key :: key in m && pubs[i].id in m[key] ==> best.similarity >= threshold && key == best.id)
  {
    var m := MatchRows(distance, pubs, regs, threshold);
    MatchGroupsByBest(distance, pubs, regs, threshold);
    var best := BestMatch(distance, pubs[i].vector, regs).id;
    if Accepts(distance, regs, threshold, pubs[i]) {
      assert pubs[i].id in FiledUnder(distance, pubs, regs, threshold, best);
    }
    forall key | key in m && pubs[i].id in m[key]
      ensures Accepts(distance, regs, threshold, pubs[i]) && key == best
    {
      assert pubs[i].id in FiledUnder(distance, pubs, regs, threshold, key);
    }
  }

  /** Each sighting id occurs in at most one list, at most once. */
  lemma SightingFiledOnce(distance: Distance, pubs: seq<LoadedRow>, regs: seq<LoadedRow>, threshold: real,
                          k1: Option<Id>, a: nat, k2: Option<Id>, b: nat)
    requires UniqueIds(pubs)
    ensures var m := MatchRows(distance, pubs, regs, threshold);
      k1 in m && k2 in m && a < |m[k1]| && b < |m[k2]| && m[k1][a] == m[k2][b] ==> k1 == k2 && a == b
  {
    var m := MatchRows(distance, pubs, regs, threshold);
    if k1 in m && k2 in m && a < |m[k1]| && b < |m[k2]| && m[k1][a] == m[k2][b] {
      MatchGroupsByBest(distance, pubs, regs, threshold);
      var id := m[k1][a];
      assert id in FiledUnder(distance, pubs, regs, threshold, k1);
      assert id in FiledUnder(distance, pubs, regs, threshold, k2);
      var i1 :| 0 <= i1 < |pubs| && pubs[i1].id == id && BestMatch(distance, pubs[i1].vector, regs).id == k1;
      var i2 :| 0 <= i2 < |pubs| && pubs[i2].id == id && BestMatch(distance, pubs[i2].vector, regs).id == k2;
      assert i1 == i2;
    }
  }

  /** The lists together hold exactly the accepted sightings: never more than there are sightings. */
  lemma {:induction false} TotalFiledIsAcceptedCount(distance: Distance, pubs: seq<LoadedRow>, regs: seq<LoadedRow>, threshold: real)
    ensures TotalFiled(MatchRows(distance, pubs, regs, threshold)) == AcceptedCount(distance, pubs, regs, threshold)
    ensures TotalFiled(MatchRows(distance, pubs, regs, threshold)) <= |pubs|
    decreases |pubs|
  {
    if pubs == [] {
      assert MatchRows(distance, pubs, regs, threshold).Keys == {};
    } else {
      var prefix := pubs[..|pubs| - 1];
      var p := pubs[|pubs| - 1];
      TotalFiledIsAcceptedCount(distance, prefix, regs, threshold);
      var best := BestMatch(distance, p.vector, regs);
      if best.similarity >= threshold {
        TotalFiledAppend(MatchRows(distance, prefix, regs, threshold), best.id, p.id);
      }
    }
  }

  /**
   * A sighting filed under a case is at least as similar to it as to every
   * other loaded case, the case is the first of the scan with that
   * similarity, and the similarity reaches the threshold.
   */
  lemma FiledPairIsBest(distance: Distance, pubs: seq<LoadedRow>, regs: seq<LoadedRow>, threshold: real,
                        i: nat, key: Option<Id>)
    requires UniqueIds(pubs) && i < |pubs|
    ensures var m := MatchRows(distance, pubs, regs, threshold);
      key in m && key.Some? && pubs[i].id in m[key] ==>
        exists x :: && FirstMaximal(distance, pubs[i].vector, regs, x)
                    && regs[x].id == key.value
                    && Score(distance, pubs[i].vector, regs[x]) >= threshold
  {
    SightingFiledIffAccepted(distance, pubs, regs, threshold, i);
  }

  /** Every key other than `None` is the id of a loaded registered case. */
  lemma {:induction false} MatchKeysAreIds(distance: Distance, pubs: seq<LoadedRow>, regs: seq<LoadedRow>, threshold: real)
    ensures forall key :: key in MatchRows(distance, pubs, regs, threshold) && key.Some? ==>
      exists j :: 0 <= j < |regs| && regs[j].id == key.value
    decreases |pubs|
  {
    if pubs != [] {
      MatchKeysAreIds(distance, pubs[..|pubs| - 1], regs, threshold);
    }
  }

  /** With a positive threshold, and so with the default 0.35, every key is a real registered id. */
  lemma PositiveThresholdKeysAreIds(distance: Distance, pubs: seq<LoadedRow>, regs: seq<LoadedRow>, threshold: real)
    requires threshold > 0.0
    ensures forall key :: key in MatchRows(distance, pubs, regs, threshold) ==>
      key.Some? && exists j :: 0 <= j < |regs| && regs[j].id == key.value
  {
    MatchKeysAreIds(distance, pubs, regs, threshold);
  }

  /** `match()` called with its default threshold of 0.35 never files a sighting under `None`. */
  lemma DefaultThresholdKeysAreIds(distance: Distance, pubs: seq<LoadedRow>, regs: seq<LoadedRow>)
    ensures forall key :: key in MatchRows(distance, pubs, regs, DEFAULT_THRESHOLD) ==>
      key.Some? && exists j :: 0 <= j < |regs| && regs[j].id == key.value
  {
    PositiveThresholdKeysAreIds(distance, pubs, regs, DEFAULT_THRESHOLD);
  }

  /** Every id filed under any key is the id of one of the scanned sightings. */
  lemma FiledSightingsArePublicRows(distance: Distance, pubs: seq<LoadedRow>, regs: seq<LoadedRow>, threshold: real)
    ensures var m := MatchRows(distance, pubs, regs, threshold);
      forall key, id :: key in m && id in m[key] ==> exists i :: 0 <= i < |pubs| && pubs[i].id == id
  {
    var m := MatchRows(distance, pubs, regs, threshold);
    MatchGroupsByBest(distance, pubs, regs, threshold);
    forall key, id | key in m && id in m[key]
      ensures exists i :: 0 <= i < |pubs| && pubs[i].id == id
    {
      assert id in FiledUnder(distance, pubs, regs, threshold, key);
    }
  }

  // -------------------- Against the store --------------------

  /** A loaded registered row names an "NF" case whose stored embedding is non-empty. */
  lemma LoadedRegisteredIsUnfound(s: Store, order: seq<Id>, decode: Decoder, j: nat)
    requires LoadEmbeddings(FetchRegisteredEmbeddings(s, order, "NF"), decode).Some?
    requires j < |LoadEmbeddings(FetchRegisteredEmbeddings(s, order, "NF"), decode).value|
    ensures var id := LoadEmbeddings(FetchRegisteredEmbeddings(s, order, "NF"), decode).value[j].id;
      id in s.registered && s.registered[id].status == NotFound && Truthy(s.registered[id].embedding)
  {
    var rows := FetchRegisteredEmbeddings(s, order, "NF");
    LoadedRowsAreDecodedTexts(rows, decode);
    var loaded := LoadEmbeddings(rows, decode).value;
    var i :| 0 <= i < |rows| && rows[i].id == loaded[j].id && Truthy(rows[i].embedding);
  }

  /** A loaded public row names an "NF" submission whose stored embedding is non-empty. */
  lemma LoadedPublicIsUnfound(s: Store, order: seq<Id>, decode: Decoder, j: nat)
    requires LoadEmbeddings(FetchPublicEmbeddings(s, order, "NF"), decode).Some?
    requires j < |LoadEmbeddings(FetchPublicEmbeddings(s, order, "NF"), decode).value|
    ensures var id := LoadEmbeddings(FetchPublicEmbeddings(s, order, "NF"), decode).value[j].id;
      id in s.publics && s.publics[id].status == NotFound && Truthy(s.publics[id].embedding)
  {
    var rows := FetchPublicEmbeddings(s, order, "NF");
    LoadedRowsAreDecodedTexts(rows, decode);
    var loaded := LoadEmbeddings(rows, decode).value;
    var i :| 0 <= i < |rows| && rows[i].id == loaded[j].id && Truthy(rows[i].embedding);
  }

  /**
   * A successful `match` against the store files its sightings under keys
   * that are "NF" registered cases with a non-empty embedding, or `None`,
   * and never `None` with a positive threshold.
   */
  lemma MatchStoreKeysAreUnfoundCases(s: Store, regOrder: seq<Id>, pubOrder: seq<Id>,
                                      decode: Decoder, distance: Distance, threshold: real)
    ensures var r := MatchStore(s, regOrder, pubOrder, decode, distance, threshold);
      r.Matched? ==>
      var m := r.result;
      && (forall key :: key in m && key.Some? ==>
            && key.value in s.registered
            && s.registered[key.value].status == NotFound
            && Truthy(s.registered[key.value].embedding))
      && (threshold > 0.0 ==> forall key :: key in m ==> key.Some?)
  {
    if MatchStore(s, regOrder, pubOrder, decode, distance, threshold).Matched? {
      var regs := LoadEmbeddings(FetchRegisteredEmbeddings(s, regOrder, "NF"), decode).value;
      var pubs := LoadEmbeddings(FetchPublicEmbeddings(s, pubOrder, "NF"), decode).value;
      var m := MatchRows(distance, pubs, regs, threshold);
      assert m == MatchStore(s, regOrder, pubOrder, decode, distance, threshold).result;
      MatchKeysAreIds(distance, pubs, regs, threshold);
      forall key | key in m && key.Some?
        ensures key.value in s.registered && s.registered[key.value].status == NotFound
                && Truthy(s.registered[key.value].embedding)
      {
        var j :| 0 <= j < |regs| && regs[j].id == key.value;
        LoadedRegisteredIsUnfound(s, regOrder, decode, j);
      }
    }
  }

  /** A successful `match` against the store files only "NF" submissions with a non-empty embedding. */
  lemma MatchStoreSightingsAreUnfound(s: Store, regOrder: seq<Id>, pubOrder: seq<Id>,
                                      decode: Decoder, distance: Distance, threshold: real)
    ensures var r := MatchStore(s, regOrder, pubOrder, decode, distance, threshold);
      r.Matched? ==>
      var m := r.result;
      forall key, a :: key in m && 0 <= a < |m[key]| ==>
        && m[key][a] in s.publics
        && s.publics[m[key][a]].status == NotFound
        && Truthy(s.publics[m[key][a]].embedding)
  {
    if MatchStore(s, regOrder, pubOrder, decode, distance, threshold).Matched? {
      var regs := LoadEmbeddings(FetchRegisteredEmbeddings(s, regOrder, "NF"), decode).value;
      var loaded := LoadEmbeddings(FetchPublicEmbeddings(s, pubOrder, "NF"), decode);
      assert loaded.Some?;
      var pubs := loaded.value;
      var m := MatchStore(s, regOrder, pubOrder, decode, distance, threshold).result;
      assert m == MatchRows(distance, pubs, regs, threshold);
      FiledSightingsArePublicRows(distance, pubs, regs, threshold);
      forall key, a | key in m && 0 <= a < |m[key]|
        ensures m[key][a] in s.publics && s.publics[m[key][a]].status == NotFound
                && Truthy(s.publics[m[key][a]].embedding)
      {
        assert m[key][a] in m[key];
        var i :| 0 <= i < |pubs| && pubs[i].id == m[key][a];
        LoadedPublicIsUnfound(s, pubOrder, decode, i);
      }
    }
  }

  /** When the scan lists each submission once, a successful run files each sighting at most once. */
  lemma MatchStoreFilesSightingOnce(s: Store, regOrder: seq<Id>, pubOrder: seq<Id>,
                                    decode: Decoder, distance: Distance, threshold: real,
                                    k1: Option<Id>, a: nat, k2: Option<Id>, b: nat)
    requires Distinct(pubOrder)
    ensures var r := MatchStore(s, regOrder, pubOrder, decode, distance, threshold);
      r.Matched? ==>
      var m := r.result;
      k1 in m && k2 in m && a < |m[k1]| && b < |m[k2]| && m[k1][a] == m[k2][b] ==> k1 == k2 && a == b
  {
    if MatchStore(s, regOrder, pubOrder, decode, distance, threshold).Matched? {
      var pubRows := FetchPublicEmbeddings(s, pubOrder, "NF");
      var regs := LoadEmbeddings(FetchRegisteredEmbeddings(s, regOrder, "NF"), decode).value;
      var pubs := LoadEmbeddings(pubRows, decode).value;
      assert MatchRows(distance, pubs, regs, threshold) == MatchStore(s, regOrder, pubOrder, decode, distance, threshold).result;
      assert UniqueRowIds(pubRows);
      LoadKeepsIdsUnique(pubRows, decode);
      SightingFiledOnce(distance, pubs, regs, threshold, k1, a, k2, b);
    }
  }
}
